=== FILE: README.md ===
# Requirer-side relation protocol of `database_requires`

This project is a Dafny model of the requirer side of the Charmed data-platform
relation library (`DatabaseRequires`, `KafkaRequires`, `ZookeeperRequires`).
A charm that consumes a database, a Kafka topic or a Zookeeper chroot uses it
to publish its request and to react to what the provider writes back. The
model covers the following:

- **Snapshot diff** (`_diff`). The remote application's databag, without the
  reserved `"data"` key, is compared with the last-seen snapshot in the local
  unit's `"data"` entry. The diff is reported as added, changed and deleted
  keys, and the snapshot is then replaced.
- **Event classification**. Each `_on_relation_changed_event` turns the diff
  into at most one event kind, using a fixed priority chain.
- **Relation aliases** (database only). `__init__` checks the alias pool size and
  defines the aliased events.
  `_assign_relation_alias` hands out the first pool entry that no sibling
  relation holds. `_get_relation_alias` reads it back.
- **Dispatch**. The plain event is emitted first. The `<alias>_<event>`
  variant follows only when the relation holds an alias.
- **Leader-gated writes**. `_update_relation_data` writes only on the leader.
  The joined handlers decide what the request contains. `fetch_relation_data`
  lists every relation's remote data without `"data"`.

The state is an explicit `World`. It holds the relations of one relation name,
in the runtime's order, plus the local unit's leadership flag. Each `Relation`
has:

- its id;
- the remote application databag;
- the baseline, i.e. the parsed `"data"` entry of the local unit databag;
- the `"alias"` entry of the local unit databag;
- the local application databag.

Handlers are pure functions. They return the new world. The changed handlers
also return the emitted event names, in emission order.

Modules: `Common` (option/result, databags, `"data"` stripping),
`RelationModel` (world, lookup by id, leader-gated update, listing),
`SnapshotDiff`, `Classifier`, `Aliases`, `Requirers` (construction, joined and
changed handlers, dispatch) and `Scenarios` (concrete runs taken from the unit
tests).

The model follows these behaviours of the code:

- The Zookeeper join sends the chroot under the key `"topic"` when no extra
  user roles are given (`RequestData`).
- The database join tests the roles for truthiness, while Kafka and Zookeeper
  test `is not None`. An empty-string role is therefore dropped by the
  database adapter and sent by the other two.
- Aliases are assigned by the database *joined* handler. The changed handler
  only reads them.
- `__init__` defines the aliased events only for pool aliases. The aliased
  `getattr` raises `AttributeError`, after the plain event has been emitted,
  when `<alias>_<event>` is not a defined event: neither a class-level event
  nor one defined for a pool alias. An alias left over from an earlier
  configuration usually hits this, and the changed handler reports it as an
  `UndefinedEvent` error. Some aliases outside the pool still name a
  defined event: `read_only` with `endpoints_changed` names the class-level
  `read_only_endpoints_changed`, which is then emitted
  (`Scenarios.ForeignAliasHitsClassEvent`).
- After the count check, `__init__` defines three events per alias with
  `define_event`. That call refuses a name that is not an identifier or that
  the event class already has. So construction fails in four cases: a
  repeated alias; an alias such as `my-db` that does not form an
  identifier; an alias whose event would shadow a class-level one (such as
  `read_only`); and two aliases whose event names coincide (such as `x` and
  `x_read_only`, which both define `x_read_only_endpoints_changed`).
  `NewDatabaseRequires` models these refusals. A constructed requirer
  therefore has a duplicate-free pool, which is the first part of the alias
  invariant (`AliasesWellFormed`).
- `list.remove` of a held alias that is not in the remaining candidates
  raises `ValueError`. Indexing an exhausted candidate list raises
  `IndexError`. Both are modelled as `AliasError` results. They are not
  preconditions. `AssignWithinLimitSucceeds` proves that neither can happen
  while the alias invariant holds and there are no more relations than pool
  entries.

## Model

| member | source | states |
|---|---|---|
| RelationModel.UpdateRelationData | lib/charms/data_platform_libs/v0/database_requires.py:400-413 | a non-leader call leaves the world unchanged; a leader call sets every given key to its given value in that relation's local app databag, keeps every other key of it, and touches no other field or relation |
| RelationModel.FetchRelationData | lib/charms/data_platform_libs/v0/database_requires.py:383-398 | the listing has exactly one entry per relation id and no entry contains the reserved `"data"` key |
| RelationModel.FetchListsEveryRelation | lib/charms/data_platform_libs/v0/database_requires.py:393-398 | with distinct ids, each relation's entry is its remote app databag minus `"data"` |
| SnapshotDiff.ComputeDiff | lib/charms/data_platform_libs/v0/database_requires.py:432-440 | added, changed and deleted are pairwise disjoint; their union is exactly the set of keys on which the two snapshots disagree; added keys are only in the current snapshot, deleted only in the prior one, changed in both |
| SnapshotDiff.PatchRebuildsCurrent | lib/charms/data_platform_libs/v0/database_requires.py:432-440 | replaying the diff on the prior snapshot (drop deleted, take added and changed values from the current) gives back the current snapshot: no change is lost |
| SnapshotDiff.EmptyDiffIffEqual | lib/charms/data_platform_libs/v0/database_requires.py:432-440 | the diff is empty if and only if the two snapshots are equal |
| SnapshotDiff.DiffRelation | lib/charms/data_platform_libs/v0/database_requires.py:415-448 | the diff is taken against the stored baseline (`{}` when absent) and the remote app databag without `"data"`; afterwards that relation's baseline is the stripped current databag and nothing else in the world changed; `"data"` is never added or changed |
| SnapshotDiff.DataKeyNeverReported | lib/charms/data_platform_libs/v0/database_requires.py:426-430 | while baselines lack `"data"` (as `_diff` stores them) the reserved key is in no diff set, and `_diff` keeps baselines that way |
| SnapshotDiff.FirstContactAddsEverything | lib/charms/data_platform_libs/v0/database_requires.py:426-433 | with no baseline yet, every current key except `"data"` is added and nothing is changed or deleted |
| SnapshotDiff.DiffIdempotent | lib/charms/data_platform_libs/v0/database_requires.py:445 | a second `_diff` with no remote change in between returns three empty sets |
| Classifier.EventName | lib/charms/data_platform_libs/v0/database_requires.py:246-334 | each declared kind is named by one of its adapter's three `EventSource` attributes (`database_created`, `endpoints_changed`, `read_only_endpoints_changed`; `topic_created`, `bootstrap_server_changed`, `credentials_changed`; `chroot_created`, `endpoints_changed`, `credentials_changed`), and every name is an identifier |
| Classifier.EventNamesDistinct | lib/charms/data_platform_libs/v0/database_requires.py:246-334 | within an adapter, two kinds share a name iff they are the same kind, so the three kinds name the three declared events one-to-one |
| Classifier.ClassifyDatabase | lib/charms/data_platform_libs/v0/database_requires.py:583-619 | created fires iff username and password are both added; otherwise endpoints-changed iff `endpoints` is added or changed; otherwise read-only-endpoints-changed iff `read-only-endpoints` is added or changed; otherwise nothing |
| Classifier.ClassifyBroker | lib/charms/data_platform_libs/v0/database_requires.py:655-680 | created fires iff both credentials are added; otherwise endpoints (bootstrap server) iff `endpoints` is added or changed; otherwise credentials-changed iff username or password changed; otherwise nothing (the Zookeeper chain at lines 717-740 is the same) |
| Classifier.ClassifyFollowsSchema | lib/charms/data_platform_libs/v0/database_requires.py:576-740 | each adapter's if-chain picks the kind of the highest-priority rule of its declared watch schema that matches the diff |
| Aliases.AssignAlias | lib/charms/data_platform_libs/v0/database_requires.py:498-529 | no pool, or an alias already held by the relation, leaves everything unchanged; on success only the relation with that id may change, only in its alias, only from a falsy alias, and the new alias is a pool entry |
| Aliases.AvailableIsPoolMinusHeld | lib/charms/data_platform_libs/v0/database_requires.py:519-525 | under the alias invariant the strike-off loop never raises and leaves exactly the pool entries no relation holds, in pool order |
| Aliases.AssignFailsOnlyWhenPoolExhausted | lib/charms/data_platform_libs/v0/database_requires.py:519-529 | under the alias invariant, assigning to a relation without an alias fails if and only if every pool entry is already held |
| Aliases.AssignPicksFirstFree | lib/charms/data_platform_libs/v0/database_requires.py:519-529 | under the alias invariant, a relation without an alias gets the first pool entry, in pool order, that no relation holds |
| Aliases.AssignPreservesWellFormed | lib/charms/data_platform_libs/v0/database_requires.py:519-529 | after a successful assignment, held aliases are still pool entries and still pairwise distinct |
| Aliases.AssignIdempotent | lib/charms/data_platform_libs/v0/database_requires.py:510-517 | running the assignment again on its own result changes nothing |
| Aliases.AssignWithinLimitSucceeds | lib/charms/data_platform_libs/v0/database_requires.py:478-529 | under the alias invariant, with a non-empty pool and no more relations than pool entries (the connection limit), assignment always succeeds |
| Aliases.GetRelationAlias | lib/charms/data_platform_libs/v0/database_requires.py:544-556 | returns the alias entry of the first relation with the id, and none for an unknown id |
| Requirers.NewDatabaseRequires | lib/charms/data_platform_libs/v0/database_requires.py:478-496 | the count is refused, reporting the non-zero given count, iff the alias list is non-empty and its length differs from the connection limit; construction succeeds iff the count is accepted and every alias event name is an identifier, new to the class and different from the others; a constructed requirer's pool is duplicate-free |
| Requirers.DefineEvent | lib/charms/data_platform_libs/v0/database_requires.py:488-496 | one event definition succeeds iff the name is an identifier the class does not have yet, and then adds exactly that name |
| Requirers.DefineEventsSucceedsIff | lib/charms/data_platform_libs/v0/database_requires.py:488-496 | the definition loop goes through iff every name is an identifier, none is already defined, and no name repeats |
| Requirers.DefineEventsRefusesFirstRepeat | lib/charms/data_platform_libs/v0/database_requires.py:488-496 | when every earlier name was accepted, the loop fails at the first name that is already defined and reports that name as a duplicate |
| Requirers.DefinedEvents | lib/charms/data_platform_libs/v0/database_requires.py:488-496 | every class-level event and, for each pool alias, each of its aliased events can be emitted |
| Requirers.DefinedEventsOnly | lib/charms/data_platform_libs/v0/database_requires.py:488-496 | nothing else can: every emittable name is a class-level event or the aliased variant of one for a pool alias |
| Requirers.ConstructionDefinesEvents | lib/charms/data_platform_libs/v0/database_requires.py:488-496 | a successful construction leaves the event class with exactly the names `DefinedEvents` lists |
| Requirers.EmitAliasedEvent | lib/charms/data_platform_libs/v0/database_requires.py:531-542 | nothing for a relation without a non-empty alias; otherwise `<alias>_<name>` when that name is a defined event (class-level or defined for a pool alias), and an `UndefinedEvent` failure naming it when it is not |
| Requirers.OnRelationChanged | lib/charms/data_platform_libs/v0/database_requires.py:576-740 | the world changes only by the diff's baseline replacement; no event iff the classifier picks no kind; otherwise the first event is that kind's name; at most two events, and two exactly for the database adapter with an alias whose event is defined, the second being `<alias>_<first>`; the hook fails, after the plain event, exactly for the database adapter with an alias whose event is not defined |
| Requirers.ChangedTwiceIsSilent | lib/charms/data_platform_libs/v0/database_requires.py:576-619 | a second changed trigger with no remote change in between emits no event and cannot fail, for every adapter |
| Requirers.EmittedEventsAreDefined | lib/charms/data_platform_libs/v0/database_requires.py:488-542 | while held aliases come from the pool, every emitted name is one defined at construction and the aliased `getattr` cannot fail |
| Requirers.RequestData | lib/charms/data_platform_libs/v0/database_requires.py:558-708 | the database request carries `database` plus `extra-user-roles` only for truthy roles; Kafka sends `topic` and Zookeeper `chroot`, plus `extra-user-roles` whenever roles are not None (an empty string included); Zookeeper without roles sends only `topic` |
| Requirers.OnRelationJoined | lib/charms/data_platform_libs/v0/database_requires.py:558-708 | Kafka, Zookeeper and database joins without an alias pool always succeed; a join fails exactly when the database adapter's alias assignment fails, with its error; the database join leaves every relation's alias as the assignment sets it, other joins change no alias; ids, remote data and baselines never change; a non-leader writes no app data; a leader's app databag for that relation ends up with exactly its old keys plus the request's, the request's values winning, and other relations keep theirs |
| Requirers.JoinAssignsFirstFree | lib/charms/data_platform_libs/v0/database_requires.py:558-561 | under the alias invariant, a database join on a relation without an alias succeeds iff some pool entry is free, and then gives it the first free entry in pool order |
| Requirers.JoinKeepsAliases | lib/charms/data_platform_libs/v0/database_requires.py:558-574 | a join keeps the alias invariant, and with no more relations than pool entries it cannot fail |
| Scenarios.DiffSequence | tests/unit/test_data_interfaces.py:436-468 | credentials appear, then nothing, then a username change, then both are removed: the diffs are added, empty, changed and deleted, in that order |
| Scenarios.AliasesAssignedInOrder | tests/unit/test_data_interfaces.py:643-661 | with pool `cluster1, cluster2`, two relations joining in order get `cluster1` then `cluster2` |
| Scenarios.AliasedCreatedDispatch | tests/unit/test_data_interfaces.py:695-746 | credentials and both endpoint entries appearing on a relation holding `cluster1` emit `database_created` then `cluster1_database_created`, and no endpoint event |
| Scenarios.CreatedBeatsEndpoints | tests/unit/test_data_interfaces.py:695-746 | when credentials and both endpoint entries appear at once, the database classifier picks created |
| Scenarios.ForeignAliasFails | lib/charms/data_platform_libs/v0/database_requires.py:488-542 | with no pool, a relation holding `old` emits `database_created` and then fails on the undefined `old_database_created` |
| Scenarios.EndpointsOnly | lib/charms/data_platform_libs/v0/database_requires.py:595-607 | a change to `endpoints` alone emits `endpoints_changed` and not the read-only event |
| Scenarios.AliasCountChecked | lib/charms/data_platform_libs/v0/database_requires.py:478-486 | one alias for a limit of two is refused with a count mismatch of one; no aliases at all is accepted |
| Scenarios.TestPoolAccepted | lib/charms/data_platform_libs/v0/database_requires.py:478-496 | the pool `cluster1, cluster2` with a limit of two is accepted |
| Scenarios.DatabaseClassEvents | lib/charms/data_platform_libs/v0/database_requires.py:246-254 | the database event class declares exactly `database_created`, `endpoints_changed` and `read_only_endpoints_changed` |
| Scenarios.RepeatedAliasRefused | lib/charms/data_platform_libs/v0/database_requires.py:488-496 | the pool `a, a` fails construction on the second definition of `a_database_created` |
| Scenarios.HyphenatedAliasRefused | lib/charms/data_platform_libs/v0/database_requires.py:488-496 | the alias `my-db` fails construction because `my-db_database_created` is not an identifier |
| Scenarios.CoincidingAliasesRefused | lib/charms/data_platform_libs/v0/database_requires.py:488-496 | the pool `x, x_read_only` fails construction because both aliases define `x_read_only_endpoints_changed` |
| Scenarios.ForeignAliasHitsClassEvent | lib/charms/data_platform_libs/v0/database_requires.py:531-542 | with no pool, a relation holding `read_only` whose endpoints change emits `endpoints_changed` and then the class-level `read_only_endpoints_changed`, without error |
| Scenarios.ShadowingAliasRefused | lib/charms/data_platform_libs/v0/database_requires.py:488-496 | the alias `read_only` fails construction because `read_only_endpoints_changed` is already a class-level event |

## Left out

- The ops framework machinery is not modelled. This covers `EventSource`, `define_event` apart from its refusals (see the `NewDatabaseRequires` line below), the class-level event registry, the metaclass and `framework.observe`. Emission is the list of event names returned by the changed handler. Listener registration and the event payload (relation, app, unit) are outside the model.
- The event payload property accessors (`username`, `endpoints`, …) are plain databag reads with no logic.
- The baseline is stored as a map. JSON encoding and decoding of the `"data"` entry is not modelled, and malformed JSON is out of scope.
- Logging and `datetime.now()` calls are left out. They are side effects only.
- The lookup of a relation by id (`get_relation`) belongs to the runtime. Handlers therefore require that the triggering relation exists. `UpdateRelationData` requires this only on the leader, and `AssignAlias` only with a non-empty pool. These are the only paths where the code performs the lookup.
- A failed hook's databag writes are discarded by the runtime. This is not modelled: `OnRelationChanged` reports the world the code leaves, together with the error.
- `getattr` on the event object is modelled as membership in `DefinedEvents`, i.e. the class-level events and the aliased ones `__init__` defines. Other attributes of the ops event object are not part of this model.
- The runtime's own databag rules are not modelled: writing an empty string deletes a key, and non-string values are refused. `UpdateRelationData` is a plain dictionary merge, as `dict.update` reads.
- NewDatabaseRequires: `define_event` belongs to the ops framework, which is not part of this model. Only its refusal of non-identifier and already-present names is modelled. Identifiers are checked as ASCII; Python also accepts non-ASCII letters. Keywords are not checked, because no keyword ends in an event suffix. The other attributes the event class inherits are not modelled. Events defined by an earlier instance stay on the class, and that is not modelled either: each construction starts from the class-level events.
- `KafkaRequires.__init__` and `ZookeeperRequires.__init__` only store their configuration. They have no check, so they are plain `Requirer` values. Only the database adapter takes an alias pool.
- The `relations` property is the `World.relations` sequence itself.

=== FILE: aliases.dfy ===
/** Relation aliases of `DatabaseRequires`: `_assign_relation_alias` gives
    a relation the first configured alias that no sibling relation (same
    relation name) holds yet, storing it in the local unit's `"alias"`
    entry; `_get_relation_alias` reads it back. */
module Aliases {
  import opened Common
  import opened RelationModel

  /** The exceptions the assignment can raise: `list.remove` of an alias
      that is not (or no longer) in the candidate list, and `[0]` on an
      empty candidate list. */
  datatype AliasError = AliasNotInPool(alias: string) | NoFreeAlias

  predicate Distinct(s: seq<string>) {
    forall i, j :: 0 <= i < j < |s| ==> s[i] != s[j]
  }

  /** `list.remove(x)`: drop the first occurrence of `x`; `None` where
      Python raises `ValueError`. */
  function RemoveFirst(s: seq<string>, x: string): (r: Option<seq<string>>)
    ensures r.None? <==> x !in s
    ensures r.Some? ==> |r.value| == |s| - 1
  {
    if |s| == 0 then None
    else if s[0] == x then Some(s[1..])
    else match RemoveFirst(s[1..], x)
      case None => None
      case Some(t) => Some([s[0]] + t)
  }

  /** The loop of `_assign_relation_alias` that strikes every alias held by
      a relation off the candidate list, in relation order. */
  function Available(avail: seq<string>, rels: seq<Relation>): Result<seq<string>, AliasError>
    decreases rels
  {
    if |rels| == 0 then Success(avail)
    else if Truthy(rels[0].alias) then
      match RemoveFirst(avail, rels[0].alias.value)
      case None => Failure(AliasNotInPool(rels[0].alias.value))
      case Some(t) => Available(t, rels[1..])
    else Available(avail, rels[1..])
  }

  /** The aliases relations currently hold (non-empty `"alias"` entries). */
  function Held(rels: seq<Relation>): set<string> {
    set i | 0 <= i < |rels| && Truthy(rels[i].alias) :: rels[i].alias.value
  }

  /** `s` with the members of `h` filtered out, order kept. */
  function Without(s: seq<string>, h: set<string>): (r: seq<string>)
    ensures forall x :: x in r <==> x in s && x !in h
    ensures |r| <= |s|
  {
    if |s| == 0 then []
    else (if s[0] in h then [] else [s[0]]) + Without(s[1..], h)
  }

  /** Position of the first entry of `s` outside `h`: the reference meaning
      of "first free alias in pool order". */
  function FirstFreeIndex(s: seq<string>, h: set<string>): (r: Option<nat>)
    ensures r.Some? ==> r.value < |s| && s[r.value] !in h
    ensures r.Some? ==> forall j :: 0 <= j < r.value ==> s[j] in h
    ensures r.None? <==> forall j :: 0 <= j < |s| ==> s[j] in h
  {
    if |s| == 0 then None
    else if s[0] !in h then Some(0)
    else match FirstFreeIndex(s[1..], h)
      case None => None
      case Some(k) => Some(k + 1)
  }

  /** Every held alias comes from the pool. */
  predicate AliasesFromPool(pool: seq<string>, rels: seq<Relation>) {
    forall i :: 0 <= i < |rels| && Truthy(rels[i].alias) ==> rels[i].alias.value in pool
  }

  /** No two relations hold the same alias. */
  predicate AliasesDistinct(rels: seq<Relation>) {
    forall i, j :: 0 <= i < j < |rels| && Truthy(rels[i].alias) && Truthy(rels[j].alias) ==>
      rels[i].alias.value != rels[j].alias.value
  }

  /** The alias invariant: a duplicate-free pool, and held aliases drawn
      from it without repetition. */
  predicate AliasesWellFormed(pool: seq<string>, rels: seq<Relation>) {
    Distinct(pool) && AliasesFromPool(pool, rels) && AliasesDistinct(rels)
  }

  /** `_assign_relation_alias(id)`. No pool, or an alias already held by
      this relation: nothing changes. Otherwise relation `id` gets the first
      candidate left once every held alias is struck off the pool. */
  function AssignAlias(pool: seq<string>, rels: seq<Relation>, id: int): (r: Result<seq<Relation>, AliasError>)
    requires |pool| > 0 ==> HasRelation(rels, id)
    ensures |pool| == 0 ==> r == Success(rels)
    ensures |pool| > 0 && Truthy(rels[IndexOf(rels, id).value].alias) ==> r == Success(rels)
    ensures r.Success? ==> |r.value| == |rels|
    ensures r.Success? ==> forall j :: 0 <= j < |rels| ==> r.value[j] == rels[j].(alias := r.value[j].alias)
    ensures r.Success? ==> forall j :: 0 <= j < |rels| && r.value[j].alias != rels[j].alias ==>
      && j == IndexOf(rels, id).value
      && !Truthy(rels[j].alias)
      && r.value[j].alias.Some?
      && r.value[j].alias.value in pool
  {
    if |pool| == 0 then Success(rels)
    else
      var i := IndexOf(rels, id).value;
      if Truthy(rels[i].alias) then Success(rels)
      else match Available(pool, rels)
        case Failure(e) => Failure(e)
        case Success(avail) =>
          if |avail| == 0 then Failure(NoFreeAlias)
          else
            AvailableFromPool(pool, rels);
            Success(rels[i := rels[i].(alias := Some(avail[0]))])
  }

  /** What `Available` leaves is drawn from what it started with. */
  lemma {:induction false} AvailableFromPool(avail: seq<string>, rels: seq<Relation>)
    ensures Available(avail, rels).Success? ==> forall x :: x in Available(avail, rels).value ==> x in avail
    decreases rels
  {
    if |rels| > 0 {
      if Truthy(rels[0].alias) {
        match RemoveFirst(avail, rels[0].alias.value)
        case None =>
        case Some(t) =>
          AvailableFromPool(t, rels[1..]);
          RemoveFirstSubset(avail, rels[0].alias.value);
      } else {
        AvailableFromPool(avail, rels[1..]);
      }
    }
  }

  lemma {:induction false} RemoveFirstSubset(s: seq<string>, x: string)
    ensures RemoveFirst(s, x).Some? ==> forall y :: y in RemoveFirst(s, x).value ==> y in s
  {
    if |s| > 0 && s[0] != x {
      RemoveFirstSubset(s[1..], x);
    }
  }

  /** `_get_relation_alias(id)`: the `"alias"` entry of the first relation
      with this id, `None` for an unknown id. */
  function GetRelationAlias(rels: seq<Relation>, id: int): (r: Option<string>)
    ensures IndexOf(rels, id).None? ==> r.None?
    ensures IndexOf(rels, id).Some? ==> r == rels[IndexOf(rels, id).value].alias
  {
    if |rels| == 0 then None
    else if rels[0].id == id then rels[0].alias
    else GetRelationAlias(rels[1..], id)
  }

  // Under the alias invariant the strike-off loop never fails, and what it
  // leaves is exactly the pool minus the held aliases, in pool order.

  lemma {:induction false} WithoutKeepsDistinct(s: seq<string>, h: set<string>)
    requires Distinct(s)
    ensures Distinct(Without(s, h))
  {
    if |s| > 0 {
      WithoutKeepsDistinct(s[1..], h);
      var rest := Without(s[1..], h);
      assert s[0] !in rest by {
        assert forall k :: 1 <= k < |s| ==> s[1..][k - 1] == s[k];
      }
    }
  }

  lemma {:induction false} RemoveFirstOfDistinct(s: seq<string>, x: string)
    requires Distinct(s) && x in s
    ensures RemoveFirst(s, x) == Some(Without(s, {x}))
  {
    if s[0] == x {
      forall y | y in s[1..] ensures y !in {x} {
        var k :| 0 <= k < |s| - 1 && s[1..][k] == y;
        assert s[k + 1] == y;
      }
      WithoutNothing(s[1..], {x});
      assert Without(s, {x}) == Without(s[1..], {x});
    } else {
      assert x in s[1..];
      RemoveFirstOfDistinct(s[1..], x);
    }
  }

  /** Filtering out keys that do not occur changes nothing. */
  lemma {:induction false} WithoutNothing(s: seq<string>, h: set<string>)
    requires forall x :: x in s ==> x !in h
    ensures Without(s, h) == s
  {
    if |s| > 0 {
      assert s == [s[0]] + s[1..];
      WithoutNothing(s[1..], h);
    }
  }

  lemma {:induction false} WithoutTwice(s: seq<string>, a: set<string>, b: set<string>)
    ensures Without(Without(s, a), b) == Without(s, a + b)
  {
    if |s| > 0 {
      WithoutTwice(s[1..], a, b);
      if s[0] !in a {
        var t := Without(s, a);
        assert t == [s[0]] + Without(s[1..], a);
        assert t[0] == s[0] && t[1..] == Without(s[1..], a);
        assert Without(t, b) == (if s[0] in b then [] else [s[0]]) + Without(t[1..], b);
      } else {
        assert Without(s, a) == Without(s[1..], a);
        assert Without(s, a + b) == Without(s[1..], a + b);
      }
    }
  }

  lemma HeldSplit(rels: seq<Relation>)
    requires |rels| > 0
    ensures Held(rels) == (if Truthy(rels[0].alias) then {rels[0].alias.value} else {}) + Held(rels[1..])
  {
  }

  lemma {:induction false} AvailableIsPoolMinusHeld(avail: seq<string>, rels: seq<Relation>)
    requires Distinct(avail) && AliasesFromPool(avail, rels) && AliasesDistinct(rels)
    ensures Available(avail, rels) == Success(Without(avail, Held(rels)))
    decreases rels
  {
    if |rels| == 0 {
      WithoutNothing(avail, Held(rels));
    } else {
      var rest := rels[1..];
      HeldSplit(rels);
      assert AliasesDistinct(rest) by {
        forall i, j | 0 <= i < j < |rest| && Truthy(rest[i].alias) && Truthy(rest[j].alias)
          ensures rest[i].alias.value != rest[j].alias.value
        {
          assert rest[i] == rels[i + 1] && rest[j] == rels[j + 1];
        }
      }
      if Truthy(rels[0].alias) {
        var a := rels[0].alias.value;
        RemoveFirstOfDistinct(avail, a);
        var t := Without(avail, {a});
        WithoutKeepsDistinct(avail, {a});
        assert AliasesFromPool(t, rest) by {
          forall i | 0 <= i < |rest| && Truthy(rest[i].alias) ensures rest[i].alias.value in t {
            assert rest[i] == rels[i + 1];
          }
        }
        AvailableIsPoolMinusHeld(t, rest);
        WithoutTwice(avail, {a}, Held(rest));
      } else {
        assert AliasesFromPool(avail, rest) by {
          forall i | 0 <= i < |rest| && Truthy(rest[i].alias) ensures rest[i].alias.value in avail {
            assert rest[i] == rels[i + 1];
          }
        }
        AvailableIsPoolMinusHeld(avail, rest);
        assert Available(avail, rels) == Available(avail, rest);
        assert Held(rels) == Held(rest);
      }
    }
  }

  /** The head of the filtered pool is the first free pool entry. */
  lemma {:induction false} WithoutHeadIsFirstFree(s: seq<string>, h: set<string>)
    ensures |Without(s, h)| > 0 <==> FirstFreeIndex(s, h).Some?
    ensures |Without(s, h)| > 0 ==> Without(s, h)[0] == s[FirstFreeIndex(s, h).value]
  {
    if |s| > 0 && s[0] in h {
      WithoutHeadIsFirstFree(s[1..], h);
    }
  }

  /** Under the alias invariant, assigning to a relation without an alias
      fails exactly when every pool entry is held. */
  lemma AssignFailsOnlyWhenPoolExhausted(pool: seq<string>, rels: seq<Relation>, id: int)
    requires AliasesWellFormed(pool, rels) && |pool| > 0 && HasRelation(rels, id)
    requires !Truthy(rels[IndexOf(rels, id).value].alias)
    ensures AssignAlias(pool, rels, id).Failure? <==> forall j :: 0 <= j < |pool| ==> pool[j] in Held(rels)
  {
    AvailableIsPoolMinusHeld(pool, rels);
    WithoutHeadIsFirstFree(pool, Held(rels));
  }

  /** Under the alias invariant, a relation without an alias gets the first
      pool entry, in pool order, that no relation holds. */
  lemma AssignPicksFirstFree(pool: seq<string>, rels: seq<Relation>, id: int)
    requires AliasesWellFormed(pool, rels) && |pool| > 0 && HasRelation(rels, id)
    requires !Truthy(rels[IndexOf(rels, id).value].alias)
    ensures AssignAlias(pool, rels, id).Success? ==>
      exists k :: 0 <= k < |pool| && pool[k] !in Held(rels) && (forall j :: 0 <= j < k ==> pool[j] in Held(rels))
        && AssignAlias(pool, rels, id).value[IndexOf(rels, id).value].alias == Some(pool[k])
  {
    AvailableIsPoolMinusHeld(pool, rels);
    WithoutHeadIsFirstFree(pool, Held(rels));
    var free := FirstFreeIndex(pool, Held(rels));
    if free.Some? {
      var k := free.value;
      assert AssignAlias(pool, rels, id).value[IndexOf(rels, id).value].alias == Some(pool[k]);
    }
  }

  /** Assignment keeps the alias invariant: held aliases stay in the pool
      and pairwise distinct. */
  lemma AssignPreservesWellFormed(pool: seq<string>, rels: seq<Relation>, id: int)
    requires AliasesWellFormed(pool, rels) && (|pool| > 0 ==> HasRelation(rels, id))
    ensures AssignAlias(pool, rels, id).Success? ==> AliasesWellFormed(pool, AssignAlias(pool, rels, id).value)
  {
    if |pool| > 0 && AssignAlias(pool, rels, id).Success? {
      var i := IndexOf(rels, id).value;
      if !Truthy(rels[i].alias) {
        var r := AssignAlias(pool, rels, id).value;
        AssignFailsOnlyWhenPoolExhausted(pool, rels, id);
        AssignPicksFirstFree(pool, rels, id);
        var a := r[i].alias.value;
        assert a !in Held(rels);
        forall j | 0 <= j < |rels| && j != i && Truthy(r[j].alias) ensures r[j].alias.value != a {
          assert r[j] == rels[j];
          assert rels[j].alias.value in Held(rels);
        }
      }
    }
  }

  /** Assigning again after a successful assignment is a no-op. */
  lemma AssignIdempotent(pool: seq<string>, rels: seq<Relation>, id: int)
    requires |pool| > 0 ==> HasRelation(rels, id)
    ensures var r := AssignAlias(pool, rels, id);
      r.Success? ==> (|pool| > 0 ==> HasRelation(r.value, id)) && AssignAlias(pool, r.value, id) == r
  {
    var r := AssignAlias(pool, rels, id);
    if |pool| > 0 && r.Success? {
      var i := IndexOf(rels, id).value;
      assert IndexOf(r.value, id) == Some(i) by {
        forall j | 0 <= j < i ensures r.value[j].id != id {
          assert r.value[j].id == rels[j].id;
        }
      }
      if !Truthy(rels[i].alias) && !Truthy(r.value[i].alias) {
        var avail := Available(pool, rels).value;
        assert r.value == rels[i := rels[i].(alias := Some(avail[0]))];
        AvailableIgnoresFalsy(pool, rels, r.value);
        assert r.value[i := r.value[i].(alias := Some(avail[0]))] == r.value;
      }
    }
  }

  /** The strike-off loop only looks at non-empty aliases. */
  lemma {:induction false} AvailableIgnoresFalsy(avail: seq<string>, rels: seq<Relation>, rels': seq<Relation>)
    requires |rels| == |rels'|
    requires forall j :: 0 <= j < |rels| ==>
      (Truthy(rels[j].alias) <==> Truthy(rels'[j].alias)) &&
      (Truthy(rels[j].alias) ==> rels[j].alias == rels'[j].alias)
    ensures Available(avail, rels) == Available(avail, rels')
    decreases rels
  {
    if |rels| > 0 {
      assert forall j :: 0 <= j < |rels| - 1 ==> rels[1..][j] == rels[j + 1] && rels'[1..][j] == rels'[j + 1];
      if Truthy(rels[0].alias) {
        match RemoveFirst(avail, rels[0].alias.value)
        case None =>
        case Some(t) => AvailableIgnoresFalsy(t, rels[1..], rels'[1..]);
      } else {
        AvailableIgnoresFalsy(avail, rels[1..], rels'[1..]);
      }
    }
  }

  /** Relations hold at most as many aliases as there are relations. */
  lemma {:induction false} HeldAtMost(rels: seq<Relation>)
    ensures |Held(rels)| <= |rels|
  {
    if |rels| > 0 {
      HeldSplit(rels);
      HeldAtMost(rels[1..]);
    }
  }

  /** A relation without an alias leaves a held set smaller than the
      number of relations. */
  lemma {:induction false} HeldBelowCount(rels: seq<Relation>, i: nat)
    requires i < |rels| && !Truthy(rels[i].alias)
    ensures |Held(rels)| < |rels|
  {
    HeldSplit(rels);
    if i == 0 {
      HeldAtMost(rels[1..]);
    } else {
      assert rels[1..][i - 1] == rels[i];
      HeldBelowCount(rels[1..], i - 1);
    }
  }

  function Elements(s: seq<string>): set<string> {
    set x | x in s
  }

  lemma {:induction false} DistinctSetSize(s: seq<string>)
    requires Distinct(s)
    ensures |Elements(s)| == |s|
  {
    if |s| > 0 {
      var rest := s[1..];
      assert Distinct(rest) by {
        forall i, j | 0 <= i < j < |rest| ensures rest[i] != rest[j] {
          assert rest[i] == s[i + 1] && rest[j] == s[j + 1];
        }
      }
      DistinctSetSize(rest);
      assert Elements(s) == {s[0]} + Elements(rest);
      assert s[0] !in rest;
    }
  }

  lemma SubsetSize(a: set<string>, b: set<string>)
    requires a <= b
    ensures |a| <= |b|
  {
    assert b == a + (b - a);
  }

  /** With a pool as large as the relation limit and no more relations than
      the limit, a relation without an alias always gets one. */
  lemma AssignWithinLimitSucceeds(pool: seq<string>, rels: seq<Relation>, id: int)
    requires AliasesWellFormed(pool, rels) && |pool| > 0 && HasRelation(rels, id)
    requires |rels| <= |pool|
    ensures AssignAlias(pool, rels, id).Success?
  {
    var i := IndexOf(rels, id).value;
    if !Truthy(rels[i].alias) {
      AssignFailsOnlyWhenPoolExhausted(pool, rels, id);
      if AssignAlias(pool, rels, id).Failure? {
        HeldBelowCount(rels, i);
        DistinctSetSize(pool);
        SubsetSize(Elements(pool), Held(rels));
        assert false;
      }
    }
  }
}

=== FILE: classifier.dfy ===
/** The three `_on_relation_changed_event` classifiers: each maps a diff to
    at most one event kind, trying its rules in a fixed priority order. */
module Classifier {
  import opened Common
  import opened SnapshotDiff

  const Username: string := "username"
  const Password: string := "password"
  const Endpoints: string := "endpoints"
  const ReadOnlyEndpoints: string := "read-only-endpoints"

  /** The protocol family a requirer speaks. */
  datatype Adapter = Database | Kafka | Zookeeper

  /** Event kinds, shared across adapters; each adapter declares three. */
  datatype EventKind = Created | EndpointsChanged | ReadOnlyEndpointsChanged | CredentialsChanged

  /** The event kinds an adapter's event class declares. */
  function Kinds(adapter: Adapter): set<EventKind> {
    match adapter
    case Database => {Created, EndpointsChanged, ReadOnlyEndpointsChanged}
    case _ => {Created, EndpointsChanged, CredentialsChanged}
  }

  /** An ASCII Python identifier: a letter or `_`, then letters, digits
      and `_`. Event names must be identifiers to become attributes. */
  predicate IsIdentifier(s: string) {
    && |s| > 0
    && IdentifierChars(s)
    && !('0' <= s[0] <= '9')
  }

  predicate IdentifierChars(s: string) {
    forall c | c in s :: IdentifierChar(c)
  }

  predicate IdentifierChar(c: char) {
    ('a' <= c <= 'z') || ('A' <= c <= 'Z') || ('0' <= c <= '9') || c == '_'
  }

  /** The event name an adapter emits for one of its kinds (the attribute
      name of its `EventSource`): one of the three the adapter's event
      class declares. */
  function EventName(adapter: Adapter, kind: EventKind): (r: string)
    requires kind in Kinds(adapter)
    ensures adapter == Database ==> r in {"database_created", "endpoints_changed", "read_only_endpoints_changed"}
    ensures adapter == Kafka ==> r in {"topic_created", "bootstrap_server_changed", "credentials_changed"}
    ensures adapter == Zookeeper ==> r in {"chroot_created", "endpoints_changed", "credentials_changed"}
    ensures IsIdentifier(r)
  {
    match adapter
    case Database =>
      (match kind
       case Created => "database_created"
       case EndpointsChanged => "endpoints_changed"
       case _ => "read_only_endpoints_changed")
    case Kafka =>
      (match kind
       case Created => "topic_created"
       case EndpointsChanged => "bootstrap_server_changed"
       case _ => "credentials_changed")
    case Zookeeper =>
      (match kind
       case Created => "chroot_created"
       case EndpointsChanged => "endpoints_changed"
       case _ => "credentials_changed")
  }

  /** Each adapter's kinds map to pairwise different event names, so its
      three kinds name exactly its three declared events. */
  lemma EventNamesDistinct(adapter: Adapter, k1: EventKind, k2: EventKind)
    requires k1 in Kinds(adapter) && k2 in Kinds(adapter)
    ensures EventName(adapter, k1) == EventName(adapter, k2) <==> k1 == k2
  {
  }

  /** Both credentials appeared: the remote side granted access. */
  predicate CredentialsAdded(d: Diff) {
    Username in d.added && Password in d.added
  }

  /** `key` was added or got a new value. */
  predicate Touched(d: Diff, key: string) {
    key in d.added || key in d.changed
  }

  /** A credential changed value (rotation rather than creation). */
  predicate CredentialsRotated(d: Diff) {
    Username in d.changed || Password in d.changed
  }

  /** `DatabaseRequires._on_relation_changed_event`: created beats
      endpoints, endpoints beat read-only endpoints. */
  function ClassifyDatabase(d: Diff): (r: Option<EventKind>)
    ensures r == Some(Created) <==> CredentialsAdded(d)
    ensures r == Some(EndpointsChanged) <==> !CredentialsAdded(d) && Touched(d, Endpoints)
    ensures r == Some(ReadOnlyEndpointsChanged) <==>
      !CredentialsAdded(d) && !Touched(d, Endpoints) && Touched(d, ReadOnlyEndpoints)
    ensures r.None? <==>
      !CredentialsAdded(d) && !Touched(d, Endpoints) && !Touched(d, ReadOnlyEndpoints)
  {
    if Username in d.added && Password in d.added then Some(Created)
    else if Endpoints in d.added || Endpoints in d.changed then Some(EndpointsChanged)
    else if ReadOnlyEndpoints in d.added || ReadOnlyEndpoints in d.changed then Some(ReadOnlyEndpointsChanged)
    else None
  }

  /** The classifier shared by `KafkaRequires` and `ZookeeperRequires`:
      created beats endpoints (bootstrap server), endpoints beat credential
      rotation. */
  function ClassifyBroker(d: Diff): (r: Option<EventKind>)
    ensures r == Some(Created) <==> CredentialsAdded(d)
    ensures r == Some(EndpointsChanged) <==> !CredentialsAdded(d) && Touched(d, Endpoints)
    ensures r == Some(CredentialsChanged) <==>
      !CredentialsAdded(d) && !Touched(d, Endpoints) && CredentialsRotated(d)
    ensures r.None? <==>
      !CredentialsAdded(d) && !Touched(d, Endpoints) && !CredentialsRotated(d)
  {
    if Username in d.added && Password in d.added then Some(Created)
    else if Endpoints in d.added || Endpoints in d.changed then Some(EndpointsChanged)
    else if Username in d.changed || Password in d.changed then Some(CredentialsChanged)
    else None
  }

  /** The classifier an adapter uses; it only picks kinds the adapter
      declares. */
  function Classify(adapter: Adapter, d: Diff): (r: Option<EventKind>)
    ensures r.Some? ==> r.value in Kinds(adapter)
  {
    match adapter
    case Database => ClassifyDatabase(d)
    case Kafka => ClassifyBroker(d)
    case Zookeeper => ClassifyBroker(d)
  }

  // A declarative reading of the same rules: each adapter lists its rules,
  // highest priority first, and the first rule that matches decides.

  /** What a rule watches for in a diff. */
  datatype Trigger =
    | BothAdded(first: string, second: string)
    | AddedOrChanged(key: string)
    | EitherChanged(first: string, second: string)

  datatype Rule = Rule(trigger: Trigger, kind: EventKind)

  predicate Matches(t: Trigger, d: Diff) {
    match t
    case BothAdded(a, b) => a in d.added && b in d.added
    case AddedOrChanged(k) => k in d.added || k in d.changed
    case EitherChanged(a, b) => a in d.changed || b in d.changed
  }

  /** The watch schema of each adapter, in priority order. */
  function Schema(adapter: Adapter): seq<Rule> {
    match adapter
    case Database =>
      [Rule(BothAdded(Username, Password), Created),
       Rule(AddedOrChanged(Endpoints), EndpointsChanged),
       Rule(AddedOrChanged(ReadOnlyEndpoints), ReadOnlyEndpointsChanged)]
    case _ =>
      [Rule(BothAdded(Username, Password), Created),
       Rule(AddedOrChanged(Endpoints), EndpointsChanged),
       Rule(EitherChanged(Username, Password), CredentialsChanged)]
  }

  /** Position of the first rule that matches, if any. */
  function FirstMatchIndex(rules: seq<Rule>, d: Diff): (r: Option<nat>)
    ensures r.Some? ==> r.value < |rules| && Matches(rules[r.value].trigger, d)
    ensures r.Some? ==> forall j :: 0 <= j < r.value ==> !Matches(rules[j].trigger, d)
    ensures r.None? <==> forall j :: 0 <= j < |rules| ==> !Matches(rules[j].trigger, d)
  {
    if |rules| == 0 then None
    else if Matches(rules[0].trigger, d) then Some(0)
    else match FirstMatchIndex(rules[1..], d)
      case None => None
      case Some(k) => Some(k + 1)
  }

  /** The kind of the first matching rule, if any. */
  function FirstMatch(rules: seq<Rule>, d: Diff): Option<EventKind> {
    match FirstMatchIndex(rules, d)
    case None => None
    case Some(i) => Some(rules[i].kind)
  }

  /** Each adapter's if-chain is exactly its schema read in priority order:
      the event fired is that of the highest-priority rule that matches. */
  lemma ClassifyFollowsSchema(adapter: Adapter, d: Diff)
    ensures Classify(adapter, d) == FirstMatch(Schema(adapter), d)
  {
    var rules := Schema(adapter);
    var m := FirstMatchIndex(rules, d);
    if Matches(rules[0].trigger, d) {
      assert m == Some(0);
    } else if Matches(rules[1].trigger, d) {
      assert m == Some(1);
    } else if Matches(rules[2].trigger, d) {
      assert m == Some(2);
    } else {
      assert m.None?;
    }
  }
}

=== FILE: common.dfy ===
/** Shared vocabulary of the requirer-side relation model: optional values,
    results with an error case, and relation databags (flat string maps). */
module Common {

  /** A value that may be absent, like a Python `None`-able value. */
  datatype Option<+T> = None | Some(value: T)

  /** The outcome of an operation that the source lets raise an exception. */
  datatype Result<+T, +E> = Success(value: T) | Failure(error: E)

  /** A relation databag: keys and values are both strings. */
  type Databag = map<string, string>

  /** The key, in the local unit's databag, that holds the last-seen snapshot
      of the remote application's databag. It is reserved: it is never
      reported in a diff nor listed to consumers. */
  const DataKey: string := "data"

  /** Python truthiness of an optional string: present and non-empty. */
  predicate Truthy(s: Option<string>) {
    s.Some? && s.value != ""
  }

  /** The databag with the reserved `"data"` key dropped and every other
      entry kept. */
  function StripData(bag: Databag): (r: Databag)
    ensures r.Keys == bag.Keys - {DataKey}
    ensures forall k :: k in r ==> r[k] == bag[k]
  {
    map k | k in bag && k != DataKey :: bag[k]
  }
}

=== FILE: diff.dfy ===
/** `_diff`: compare the remote application's current databag with the
    last-seen snapshot kept in the local unit's `"data"` entry, and replace
    that snapshot with the current one. */
module SnapshotDiff {
  import opened Common
  import opened RelationModel

  /** Keys added, keys whose value changed, keys deleted. */
  datatype Diff = Diff(added: set<string>, changed: set<string>, deleted: set<string>) {
    predicate IsEmpty() {
      added == {} && changed == {} && deleted == {}
    }

    /** Every key the diff reports, whatever the reason. */
    function Keys(): set<string> {
      added + changed + deleted
    }
  }

  /** Both snapshots agree on `k`: absent from both, or present in both
      with the same value. */
  predicate AgreeOn(prior: Databag, current: Databag, k: string) {
    (k !in prior && k !in current) || (k in prior && k in current && prior[k] == current[k])
  }

  /** The diff between two snapshots. The three sets never overlap, and
      together they hold exactly the keys on which the snapshots disagree;
      added keys are only in `current`, deleted keys only in `prior`. */
  function ComputeDiff(prior: Databag, current: Databag): (d: Diff)
    ensures d.added !! d.changed && d.added !! d.deleted && d.changed !! d.deleted
    ensures forall k :: k in d.Keys() <==> k in prior.Keys + current.Keys && !AgreeOn(prior, current, k)
    ensures forall k :: k in d.added ==> k in current && k !in prior
    ensures forall k :: k in d.deleted ==> k in prior && k !in current
    ensures forall k :: k in d.changed ==> k in prior && k in current
  {
    Diff(current.Keys - prior.Keys,
         (set k | k in prior && k in current && prior[k] != current[k]),
         prior.Keys - current.Keys)
  }

  /** Replays a diff on the prior snapshot, taking the values of added and
      changed keys from `source`. */
  function Patch(prior: Databag, d: Diff, source: Databag): Databag
    requires d.added + d.changed <= source.Keys
  {
    (prior - d.deleted) + map k | k in d.added + d.changed :: source[k]
  }

  /** The diff loses nothing: replaying it on the prior snapshot rebuilds the
      current one. */
  lemma PatchRebuildsCurrent(prior: Databag, current: Databag)
    ensures Patch(prior, ComputeDiff(prior, current), current) == current
  {
  }

  /** The diff is empty exactly when the two snapshots are equal. */
  lemma EmptyDiffIffEqual(prior: Databag, current: Databag)
    ensures ComputeDiff(prior, current).IsEmpty() <==> prior == current
  {
  }

  /** `_diff` on relation `id`: the diff between the stored baseline (`{}`
      when absent) and the remote application databag without `"data"`,
      together with the world in which that relation's baseline has become
      the current snapshot. */
  function DiffRelation(w: World, id: int): (res: (Diff, World))
    requires HasRelation(w.relations, id)
    ensures var i := IndexOf(w.relations, id).value;
      var rel := w.relations[i];
      var current := StripData(rel.remoteApp);
      && res.0 == ComputeDiff(Baseline(rel), current)
      && res.1.isLeader == w.isLeader
      && |res.1.relations| == |w.relations|
      && (forall j :: 0 <= j < |w.relations| && j != i ==> res.1.relations[j] == w.relations[j])
      && res.1.relations[i] == rel.(baseline := Some(current))
    ensures DataKey !in res.0.added + res.0.changed
  {
    var i := IndexOf(w.relations, id).value;
    var rel := w.relations[i];
    var current := StripData(rel.remoteApp);
    (ComputeDiff(Baseline(rel), current),
     w.(relations := w.relations[i := rel.(baseline := Some(current))]))
  }

  /** Every stored baseline lacks the reserved key, as `_diff` stores it. */
  predicate BaselinesClean(w: World) {
    forall j :: 0 <= j < |w.relations| ==> DataKey !in Baseline(w.relations[j])
  }

  /** `"data"` is never reported, and `_diff` keeps baselines clean. */
  lemma DataKeyNeverReported(w: World, id: int)
    requires HasRelation(w.relations, id) && BaselinesClean(w)
    ensures DataKey !in DiffRelation(w, id).0.Keys()
    ensures BaselinesClean(DiffRelation(w, id).1)
  {
  }

  /** On first contact (no baseline yet) every current key is added. */
  lemma FirstContactAddsEverything(w: World, id: int)
    requires HasRelation(w.relations, id)
    requires w.relations[IndexOf(w.relations, id).value].baseline.None?
    ensures var d := DiffRelation(w, id).0;
      var rel := w.relations[IndexOf(w.relations, id).value];
      d.added == StripData(rel.remoteApp).Keys && d.changed == {} && d.deleted == {}
  {
  }

  /** A second `_diff` with no remote change in between reports nothing. */
  lemma DiffIdempotent(w: World, id: int)
    requires HasRelation(w.relations, id)
    ensures var w1 := DiffRelation(w, id).1;
      HasRelation(w1.relations, id) && DiffRelation(w1, id).0.IsEmpty()
  {
  }
}

=== FILE: relations.dfy ===
/** The state the requirer side sees: the relations of one relation name, in
    the order the runtime lists them, each with the databags this library
    reads and writes, plus the leadership flag of the local unit. */
module RelationModel {
  import opened Common

  /** One relation instance.
      - `remoteApp`: the remote application's databag (read-only here);
      - `baseline`: the local unit's `"data"` entry, the last-seen snapshot
        of `remoteApp` (`None` while the entry is absent);
      - `alias`: the local unit's `"alias"` entry;
      - `localApp`: the local application's databag (leader-only writes). */
  datatype Relation = Relation(
    id: int,
    remoteApp: Databag,
    baseline: Option<Databag>,
    alias: Option<string>,
    localApp: Databag)

  datatype World = World(relations: seq<Relation>, isLeader: bool)

  /** Position of the first relation carrying `id`, as the runtime's
      lookup by relation id finds it. */
  function IndexOf(rels: seq<Relation>, id: int): (r: Option<nat>)
    ensures r.Some? ==> r.value < |rels| && rels[r.value].id == id
    ensures r.Some? ==> forall j :: 0 <= j < r.value ==> rels[j].id != id
    ensures r.None? <==> forall j :: 0 <= j < |rels| ==> rels[j].id != id
  {
    if |rels| == 0 then None
    else if rels[0].id == id then Some(0)
    else match IndexOf(rels[1..], id)
      case None => None
      case Some(k) => Some(k + 1)
  }

  predicate HasRelation(rels: seq<Relation>, id: int) {
    IndexOf(rels, id).Some?
  }

  /** Relation ids are pairwise distinct, as the runtime guarantees. */
  predicate UniqueIds(rels: seq<Relation>) {
    forall i, j :: 0 <= i < j < |rels| ==> rels[i].id != rels[j].id
  }

  /** The stored baseline, with an absent `"data"` entry read as `{}`. */
  function Baseline(rel: Relation): Databag {
    match rel.baseline
    case None => map[]
    case Some(b) => b
  }

  /** `_update_relation_data`: merge `data` into the local application
      databag of relation `id`, but only when the local unit is the leader;
      a non-leader call is a silent no-op. */
  function UpdateRelationData(w: World, id: int, data: Databag): (r: World)
    requires w.isLeader ==> HasRelation(w.relations, id)
    ensures !w.isLeader ==> r == w
    ensures r.isLeader == w.isLeader && |r.relations| == |w.relations|
    ensures w.isLeader ==>
      var i := IndexOf(w.relations, id).value;
      && (forall j :: 0 <= j < |w.relations| && j != i ==> r.relations[j] == w.relations[j])
      && r.relations[i].id == w.relations[i].id
      && r.relations[i].remoteApp == w.relations[i].remoteApp
      && r.relations[i].baseline == w.relations[i].baseline
      && r.relations[i].alias == w.relations[i].alias
      && r.relations[i].localApp.Keys == w.relations[i].localApp.Keys + data.Keys
      && (forall k :: k in data ==> r.relations[i].localApp[k] == data[k])
      && (forall k :: k in w.relations[i].localApp && k !in data ==>
            r.relations[i].localApp[k] == w.relations[i].localApp[k])
  {
    if !w.isLeader then w
    else
      var i := IndexOf(w.relations, id).value;
      var rel := w.relations[i];
      w.(relations := w.relations[i := rel.(localApp := rel.localApp + data)])
  }

  /** `fetch_relation_data`: every relation's remote application databag,
      keyed by relation id, without the reserved `"data"` key. When two
      relations share an id the later one wins, as a dict assignment in a
      loop does. */
  function FetchRelationData(rels: seq<Relation>): (r: map<int, Databag>)
    ensures r.Keys == RelationIds(rels)
    ensures forall id :: id in r ==> DataKey !in r[id]
  {
    if |rels| == 0 then map[]
    else map[rels[0].id := StripData(rels[0].remoteApp)] + FetchRelationData(rels[1..])
  }

  /** The ids of the listed relations. */
  function RelationIds(rels: seq<Relation>): set<int> {
    set i | 0 <= i < |rels| :: rels[i].id
  }

  /** With distinct ids every relation's listing is its own remote databag
      minus `"data"`. */
  lemma {:induction false} FetchListsEveryRelation(rels: seq<Relation>)
    requires UniqueIds(rels)
    ensures forall i :: 0 <= i < |rels| ==> FetchRelationData(rels)[rels[i].id] == StripData(rels[i].remoteApp)
  {
    if |rels| > 0 {
      var rest := rels[1..];
      assert UniqueIds(rest) by {
        forall i, j | 0 <= i < j < |rest| ensures rest[i].id != rest[j].id {
          assert rest[i] == rels[i + 1] && rest[j] == rels[j + 1];
        }
      }
      FetchListsEveryRelation(rest);
      var m := FetchRelationData(rest);
      assert FetchRelationData(rels) == map[rels[0].id := StripData(rels[0].remoteApp)] + m;
      assert rels[0].id !in m by {
        forall j | 0 <= j < |rest| ensures rest[j].id != rels[0].id {
          assert rest[j] == rels[j + 1];
        }
      }
      forall i | 1 <= i < |rels|
        ensures FetchRelationData(rels)[rels[i].id] == StripData(rels[i].remoteApp)
      {
        assert rels[i] == rest[i - 1];
        assert rels[i].id in m;
      }
    }
  }
}

=== FILE: requirers.dfy ===
/** The three requirer adapters (`DatabaseRequires`, `KafkaRequires`,
    `ZookeeperRequires`): construction, the relation-joined handlers that
    publish the request, and the relation-changed handlers that diff,
    classify and emit events. Emitting an event is modelled as appending
    its name to the returned list. */
module Requirers {
  import opened Common
  import opened RelationModel
  import opened SnapshotDiff
  import opened Classifier
  import opened Aliases

  const ExtraUserRolesKey: string := "extra-user-roles"

  /** A configured requirer. `resource` is the database name, the topic or
      the chroot, depending on the adapter; `aliases` is the alias pool
      (empty when none was given, and always empty for Kafka and
      Zookeeper, which take none). */
  datatype Requirer = Requirer(
    adapter: Adapter,
    resource: string,
    extraUserRoles: Option<string>,
    aliases: seq<string>)

  /** Why construction fails: the alias count differs from the connection
      limit, or `define_event` refuses an aliased event name (not an
      identifier, or already an attribute of the event class). */
  datatype ConfigError =
    | AliasCountMismatch(limit: Option<int>, given: nat)
    | InvalidEventName(name: string)
    | DuplicateEvent(name: string)

  /** The events an adapter's event class declares. */
  function ClassEvents(adapter: Adapter): set<string> {
    set k | k in Kinds(adapter) :: EventName(adapter, k)
  }

  /** The three events `__init__` defines for one alias, in order. */
  function AliasEvents(alias: string): seq<string> {
    [AliasedEventName(alias, EventName(Database, Created)),
     AliasedEventName(alias, EventName(Database, EndpointsChanged)),
     AliasedEventName(alias, EventName(Database, ReadOnlyEndpointsChanged))]
  }

  /** Every alias's events, in the order the `__init__` loop defines them;
      entry `3 * i` is the created event of alias `i`. */
  function AllAliasEvents(aliases: seq<string>): (r: seq<string>)
    ensures |r| == 3 * |aliases|
    ensures forall i :: 0 <= i < |aliases| ==> r[3 * i] == AliasedEventName(aliases[i], "database_created")
  {
    if |aliases| == 0 then [] else AliasEvents(aliases[0]) + AllAliasEvents(aliases[1..])
  }

  /** `define_event`: a name that is not an identifier, or that the event
      class already has, is refused; otherwise the class gains it. */
  function DefineEvent(defined: set<string>, name: string): (r: Result<set<string>, ConfigError>)
    ensures r.Success? <==> IsIdentifier(name) && name !in defined
    ensures r.Success? ==> r.value == defined + {name}
    ensures r.Failure? ==> r.error in {InvalidEventName(name), DuplicateEvent(name)}
  {
    if !IsIdentifier(name) then Failure(InvalidEventName(name))
    else if name in defined then Failure(DuplicateEvent(name))
    else Success(defined + {name})
  }

  /** `define_event` on each name in turn, stopping at the first refusal. */
  function DefineEvents(defined: set<string>, names: seq<string>): (r: Result<set<string>, ConfigError>)
    ensures r.Success? ==> r.value == defined + Elements(names)
    decreases |names|
  {
    if |names| == 0 then Success(defined)
    else match DefineEvent(defined, names[0])
      case Failure(e) => Failure(e)
      case Success(d) =>
        assert Elements(names) == {names[0]} + Elements(names[1..]);
        DefineEvents(d, names[1..])
  }

  /** Names every `define_event` call accepts: identifiers, new to the
      class, and pairwise different. */
  predicate EventNamesFresh(defined: set<string>, names: seq<string>) {
    && (forall i :: 0 <= i < |names| ==> IsIdentifier(names[i]) && names[i] !in defined)
    && Distinct(names)
  }

  /** The definition loop goes through exactly when every name is fresh. */
  lemma {:induction false} DefineEventsSucceedsIff(defined: set<string>, names: seq<string>)
    ensures DefineEvents(defined, names).Success? <==> EventNamesFresh(defined, names)
    decreases |names|
  {
    if |names| > 0 {
      var n := names[0];
      var rest := names[1..];
      DefineEventsSucceedsIff(defined + {n}, rest);
      assert Distinct(names) <==> Distinct(rest) && n !in rest by {
        if Distinct(names) {
          forall i, j | 0 <= i < j < |rest| ensures rest[i] != rest[j] {
            assert rest[i] == names[i + 1] && rest[j] == names[j + 1];
          }
          forall k | 0 <= k < |rest| ensures rest[k] != n {
            assert rest[k] == names[k + 1];
          }
        }
        if Distinct(rest) && n !in rest {
          forall i, j | 0 <= i < j < |names| ensures names[i] != names[j] {
            if i == 0 {
              assert names[j] == rest[j - 1];
            } else {
              assert names[i] == rest[i - 1] && names[j] == rest[j - 1];
            }
          }
        }
      }
      if EventNamesFresh(defined, names) {
        forall i | 0 <= i < |rest| ensures IsIdentifier(rest[i]) && rest[i] !in defined + {n} {
          assert rest[i] == names[i + 1];
        }
      }
      if DefineEvent(defined, n).Success? && EventNamesFresh(defined + {n}, rest) {
        forall i | 0 <= i < |names| ensures IsIdentifier(names[i]) && names[i] !in defined {
          if i > 0 {
            assert names[i] == rest[i - 1];
          }
        }
      }
    }
  }

  /** The definition loop stops at the first name already defined: when
      every earlier name is fresh, that name is the one reported. */
  lemma {:induction false} DefineEventsRefusesFirstRepeat(defined: set<string>, names: seq<string>, k: nat)
    requires k < |names|
    requires EventNamesFresh(defined, names[..k])
    requires IsIdentifier(names[k]) && names[k] in defined + Elements(names[..k])
    ensures DefineEvents(defined, names) == Failure(DuplicateEvent(names[k]))
    decreases k
  {
    var n := names[0];
    if k == 0 {
      assert Elements(names[..0]) == {};
    } else {
      var p := names[..k];
      var rest := names[1..];
      var q := rest[..k - 1];
      assert p[0] == n;
      forall i | 0 <= i < |q| ensures q[i] == p[i + 1] {
      }
      forall i | 0 <= i < |q| ensures IsIdentifier(q[i]) && q[i] !in defined + {n} {
        assert p[0] != p[i + 1];
      }
      forall i, j | 0 <= i < j < |q| ensures q[i] != q[j] {
        assert p[i + 1] != p[j + 1];
      }
      assert rest[k - 1] == names[k];
      assert names[k] in (defined + {n}) + Elements(q) by {
        if names[k] !in defined {
          var j :| 0 <= j < k && p[j] == names[k];
          if j > 0 {
            assert q[j - 1] == names[k];
          }
        }
      }
      DefineEventsRefusesFirstRepeat(defined + {n}, rest, k - 1);
    }
  }

  /** Fresh alias events come from pairwise different aliases. */
  lemma FreshEventsDistinctAliases(aliases: seq<string>)
    requires Distinct(AllAliasEvents(aliases))
    ensures Distinct(aliases)
  {
    var names := AllAliasEvents(aliases);
    forall i, j | 0 <= i < j < |aliases| ensures aliases[i] != aliases[j] {
      assert names[3 * i] == AliasedEventName(aliases[i], "database_created");
      assert names[3 * j] == AliasedEventName(aliases[j], "database_created");
      assert 3 * i < 3 * j < |names|;
      assert names[3 * i] != names[3 * j];
    }
  }

  /** `DatabaseRequires.__init__`. A non-empty alias list must be exactly
      as long as the relation's connection limit (`None` when the metadata
      declares no limit); then the three events of every alias are defined
      in turn, and the first refusal of `define_event` fails construction.
      A constructed requirer therefore has a duplicate-free pool. */
  function NewDatabaseRequires(database: string, extraUserRoles: Option<string>,
                               aliases: seq<string>, limit: Option<int>): (r: Result<Requirer, ConfigError>)
    ensures (r.Failure? && r.error.AliasCountMismatch?) <==> |aliases| > 0 && limit != Some(|aliases|)
    ensures r.Failure? && r.error.AliasCountMismatch? ==> r.error.given == |aliases|
    ensures r.Success? <==>
      (|aliases| == 0 || limit == Some(|aliases|)) && EventNamesFresh(ClassEvents(Database), AllAliasEvents(aliases))
    ensures r.Success? ==> r.value == Requirer(Database, database, extraUserRoles, aliases)
    ensures r.Success? ==> Distinct(r.value.aliases)
  {
    if |aliases| > 0 && limit != Some(|aliases|) then Failure(AliasCountMismatch(limit, |aliases|))
    else
      DefineEventsSucceedsIff(ClassEvents(Database), AllAliasEvents(aliases));
      match DefineEvents(ClassEvents(Database), AllAliasEvents(aliases))
      case Failure(e) =>
        assert !e.AliasCountMismatch? by {
          DefineEventsNeverMiscounts(ClassEvents(Database), AllAliasEvents(aliases));
        }
        Failure(e)
      case Success(_) =>
        FreshEventsDistinctAliases(aliases);
        Success(Requirer(Database, database, extraUserRoles, aliases))
  }

  /** `define_event` refusals are about names, never about the count. */
  lemma {:induction false} DefineEventsNeverMiscounts(defined: set<string>, names: seq<string>)
    ensures DefineEvents(defined, names).Failure? ==> !DefineEvents(defined, names).error.AliasCountMismatch?
    decreases |names|
  {
    if |names| > 0 && DefineEvent(defined, names[0]).Success? {
      DefineEventsNeverMiscounts(DefineEvent(defined, names[0]).value, names[1..]);
    }
  }

  /** The name of the per-alias variant of an event. */
  function AliasedEventName(alias: string, name: string): string {
    alias + "_" + name
  }

  /** The events a requirer can emit without an `AttributeError`: its
      class-level events plus, for each pool alias, the aliased variant of
      each of them (the names `__init__` defines). */
  function DefinedEvents(req: Requirer): (r: set<string>)
    ensures forall k :: k in Kinds(req.adapter) ==> EventName(req.adapter, k) in r
    ensures forall a, k :: a in req.aliases && k in Kinds(req.adapter) ==>
      AliasedEventName(a, EventName(req.adapter, k)) in r
  {
    ClassEvents(req.adapter)
    + (set a, k | a in req.aliases && k in Kinds(req.adapter) :: AliasedEventName(a, EventName(req.adapter, k)))
  }

  /** Nothing else is defined: every emittable name is a class-level event
      or the aliased variant of one for a pool alias. */
  lemma DefinedEventsOnly(req: Requirer, e: string)
    ensures e in DefinedEvents(req) ==>
      (e in ClassEvents(req.adapter) ||
       exists a, k :: a in req.aliases && k in Kinds(req.adapter) && e == AliasedEventName(a, EventName(req.adapter, k)))
  {
  }

  /** The alias events of a pool, as a set: every pool alias with every
      database kind. */
  lemma {:induction false} AllAliasEventsElements(aliases: seq<string>)
    ensures Elements(AllAliasEvents(aliases)) ==
      (set a, k | a in aliases && k in Kinds(Database) :: AliasedEventName(a, EventName(Database, k)))
    decreases |aliases|
  {
    if |aliases| > 0 {
      AllAliasEventsElements(aliases[1..]);
      var all := AllAliasEvents(aliases);
      var head := AliasEvents(aliases[0]);
      var rest := AllAliasEvents(aliases[1..]);
      assert Elements(all) == Elements(head) + Elements(rest);
      var target := set a, k | a in aliases && k in Kinds(Database) :: AliasedEventName(a, EventName(Database, k));
      var restTarget := set a, k | a in aliases[1..] && k in Kinds(Database) :: AliasedEventName(a, EventName(Database, k));
      assert Elements(head) == set k | k in Kinds(Database) :: AliasedEventName(aliases[0], EventName(Database, k)) by {
        assert head == [head[0], head[1], head[2]];
      }
      forall x | x in target ensures x in Elements(all) {
        var a, k :| a in aliases && k in Kinds(Database) && x == AliasedEventName(a, EventName(Database, k));
        if a != aliases[0] {
          assert a in aliases[1..];
          assert x in restTarget;
        }
      }
      forall x | x in Elements(all) ensures x in target {
        if x in Elements(rest) {
          assert x in restTarget;
          var a, k :| a in aliases[1..] && k in Kinds(Database) && x == AliasedEventName(a, EventName(Database, k));
          assert a in aliases;
        } else {
          var k :| k in Kinds(Database) && x == AliasedEventName(aliases[0], EventName(Database, k));
          assert aliases[0] in aliases;
        }
      }
    }
  }

  /** Construction defines exactly the events `DefinedEvents` lists. */
  lemma ConstructionDefinesEvents(database: string, extraUserRoles: Option<string>,
                                  aliases: seq<string>, limit: Option<int>)
    ensures var r := NewDatabaseRequires(database, extraUserRoles, aliases, limit);
      r.Success? ==>
        DefineEvents(ClassEvents(Database), AllAliasEvents(aliases)).Success?
        && DefineEvents(ClassEvents(Database), AllAliasEvents(aliases)).value == DefinedEvents(r.value)
  {
    AllAliasEventsElements(aliases);
    DefineEventsSucceedsIff(ClassEvents(Database), AllAliasEvents(aliases));
  }

  /** The `AttributeError` that `getattr` raises for an aliased event name
      that was never defined. */
  datatype EmitError = UndefinedEvent(name: string)

  /** `_emit_aliased_event`: when the relation holds a non-empty alias, the
      aliased variant of `name`, provided it is a defined event (class-level,
      or defined for a pool alias); any other aliased name makes the lookup
      fail. Nothing is emitted for a relation without an alias. */
  function EmitAliasedEvent(req: Requirer, rels: seq<Relation>, id: int, name: string): (r: Result<seq<string>, EmitError>)
    ensures r.Success? ==> |r.value| <= 1
    ensures r.Success? && |r.value| == 1 <==>
      HasRelation(rels, id) && Truthy(rels[IndexOf(rels, id).value].alias)
      && AliasedEventName(rels[IndexOf(rels, id).value].alias.value, name) in DefinedEvents(req)
    ensures r.Success? && |r.value| == 1 ==> r.value[0] == AliasedEventName(rels[IndexOf(rels, id).value].alias.value, name)
    ensures r.Failure? <==>
      HasRelation(rels, id) && Truthy(rels[IndexOf(rels, id).value].alias)
      && AliasedEventName(rels[IndexOf(rels, id).value].alias.value, name) !in DefinedEvents(req)
    ensures r.Failure? ==> r.error == UndefinedEvent(AliasedEventName(rels[IndexOf(rels, id).value].alias.value, name))
  {
    var alias := GetRelationAlias(rels, id);
    if !Truthy(alias) then Success([])
    else
      var aliased := AliasedEventName(alias.value, name);
      if aliased in DefinedEvents(req) then Success([aliased]) else Failure(UndefinedEvent(aliased))
  }

  /** What a relation-changed hook leaves behind: the world with the new
      baseline, the events emitted in order, and the error that ended the
      hook, if any (the plain event has been emitted by then). */
  datatype Changed = Changed(world: World, events: seq<string>, error: Option<EmitError>)

  /** `_on_relation_changed_event` of each adapter, triggered on relation
      `id`. At most one kind fires, the one the adapter's classifier picks
      from the diff; its plain event comes first. For the database adapter
      an aliased copy follows when the relation holds an alias whose events
      are defined, and the hook fails when they are not. Kafka and
      Zookeeper never emit aliased events. */
  function OnRelationChanged(req: Requirer, w: World, id: int): (res: Changed)
    requires HasRelation(w.relations, id)
    ensures res.world == DiffRelation(w, id).1
    ensures var kind := Classify(req.adapter, DiffRelation(w, id).0);
      var alias := w.relations[IndexOf(w.relations, id).value].alias;
      && (res.events == [] <==> kind.None?)
      && (res.events != [] ==> res.events[0] == EventName(req.adapter, kind.value))
      && |res.events| <= 2
      && (|res.events| == 2 <==>
            (req.adapter == Database && kind.Some? && Truthy(alias)
             && AliasedEventName(alias.value, EventName(req.adapter, kind.value)) in DefinedEvents(req)))
      && (|res.events| == 2 ==> res.events[1] == AliasedEventName(alias.value, res.events[0]))
      && (res.error.Some? <==>
            (req.adapter == Database && kind.Some? && Truthy(alias)
             && AliasedEventName(alias.value, EventName(req.adapter, kind.value)) !in DefinedEvents(req)))
      && (res.error.Some? ==>
            (|res.events| == 1 && res.error.value == UndefinedEvent(AliasedEventName(alias.value, res.events[0]))))
  {
    var (d, w') := DiffRelation(w, id);
    var i := IndexOf(w.relations, id).value;
    assert IndexOf(w'.relations, id) == Some(i) by {
      forall j | 0 <= j < i ensures w'.relations[j].id != id {
        assert w'.relations[j] == w.relations[j];
      }
    }
    match Classify(req.adapter, d)
    case None => Changed(w', [], None)
    case Some(kind) =>
      var name := EventName(req.adapter, kind);
      if req.adapter != Database then Changed(w', [name], None)
      else match EmitAliasedEvent(req, w'.relations, id, name)
        case Success(more) => Changed(w', [name] + more, None)
        case Failure(e) => Changed(w', [name], Some(e))
  }

  /** A second trigger with no remote change in between emits nothing and
      cannot fail. */
  lemma ChangedTwiceIsSilent(req: Requirer, w: World, id: int)
    requires HasRelation(w.relations, id)
    ensures var w1 := OnRelationChanged(req, w, id).world;
      && HasRelation(w1.relations, id)
      && OnRelationChanged(req, w1, id).events == []
      && OnRelationChanged(req, w1, id).error.None?
  {
  }

  /** While held aliases come from the pool, every emitted event name was
      defined at construction and the aliased `getattr` cannot fail. */
  lemma EmittedEventsAreDefined(req: Requirer, w: World, id: int)
    requires HasRelation(w.relations, id)
    requires AliasesFromPool(req.aliases, w.relations)
    ensures forall e :: e in OnRelationChanged(req, w, id).events ==> e in DefinedEvents(req)
    ensures OnRelationChanged(req, w, id).error.None?
  {
  }

  /** The request a requirer publishes on joining: the resource under the
      adapter's key, plus `extra-user-roles` when roles were given. The
      database adapter tests the roles for truthiness, so an empty string
      is left out; Kafka and Zookeeper test `is not None`, so an empty
      string is sent. Without roles, Zookeeper sends its chroot under the
      key `topic`, not `chroot`. */
  function RequestData(req: Requirer): (r: Databag)
    ensures ExtraUserRolesKey in r <==>
      (if req.adapter == Database then Truthy(req.extraUserRoles) else req.extraUserRoles.Some?)
    ensures ExtraUserRolesKey in r ==> r[ExtraUserRolesKey] == req.extraUserRoles.value
    ensures req.adapter == Database ==> r.Keys - {ExtraUserRolesKey} == {"database"}
    ensures req.adapter == Kafka ==> r.Keys - {ExtraUserRolesKey} == {"topic"}
    ensures req.adapter == Zookeeper && req.extraUserRoles.Some? ==> r.Keys - {ExtraUserRolesKey} == {"chroot"}
    ensures req.adapter == Zookeeper && req.extraUserRoles.None? ==> r.Keys == {"topic"}
    ensures forall k :: k in r && k != ExtraUserRolesKey ==> r[k] == req.resource
  {
    match req.adapter
    case Database =>
      if Truthy(req.extraUserRoles) then
        map["database" := req.resource, ExtraUserRolesKey := req.extraUserRoles.value]
      else map["database" := req.resource]
    case Kafka =>
      if req.extraUserRoles.Some? then
        map["topic" := req.resource, ExtraUserRolesKey := req.extraUserRoles.value]
      else map["topic" := req.resource]
    case Zookeeper =>
      if req.extraUserRoles.Some? then
        map["chroot" := req.resource, ExtraUserRolesKey := req.extraUserRoles.value]
      else map["topic" := req.resource]
  }

  /** `_on_relation_joined_event` of each adapter on relation `id`. The
      database adapter first assigns an alias (a unit-databag write that
      any unit makes), which may fail; every adapter then publishes its
      request, which only the leader does. */
  function OnRelationJoined(req: Requirer, w: World, id: int): (r: Result<World, AliasError>)
    requires HasRelation(w.relations, id)
    ensures req.adapter != Database || |req.aliases| == 0 ==> r.Success?
    ensures r.Failure? <==> req.adapter == Database && AssignAlias(req.aliases, w.relations, id).Failure?
    ensures r.Failure? ==> r == Failure(AssignAlias(req.aliases, w.relations, id).error)
    ensures r.Success? ==> r.value.isLeader == w.isLeader && |r.value.relations| == |w.relations|
    ensures r.Success? ==> forall j :: 0 <= j < |w.relations| ==>
      && r.value.relations[j].id == w.relations[j].id
      && r.value.relations[j].remoteApp == w.relations[j].remoteApp
      && r.value.relations[j].baseline == w.relations[j].baseline
    ensures r.Success? && req.adapter == Database ==> forall j :: 0 <= j < |w.relations| ==>
      r.value.relations[j].alias == AssignAlias(req.aliases, w.relations, id).value[j].alias
    ensures r.Success? && req.adapter != Database ==> forall j :: 0 <= j < |w.relations| ==>
      r.value.relations[j].alias == w.relations[j].alias
    ensures r.Success? && !w.isLeader ==> forall j :: 0 <= j < |w.relations| ==>
      r.value.relations[j].localApp == w.relations[j].localApp
    ensures r.Success? && w.isLeader ==>
      var i := IndexOf(w.relations, id).value;
      && (forall j :: 0 <= j < |w.relations| && j != i ==> r.value.relations[j].localApp == w.relations[j].localApp)
      && r.value.relations[i].localApp.Keys == w.relations[i].localApp.Keys + RequestData(req).Keys
      && (forall k :: k in RequestData(req) ==>
            (k in r.value.relations[i].localApp && r.value.relations[i].localApp[k] == RequestData(req)[k]))
      && (forall k :: k in w.relations[i].localApp && k !in RequestData(req) ==>
            (k in r.value.relations[i].localApp && r.value.relations[i].localApp[k] == w.relations[i].localApp[k]))
  {
    if req.adapter == Database then
      match AssignAlias(req.aliases, w.relations, id)
      case Failure(e) => Failure(e)
      case Success(rels) =>
        var i := IndexOf(w.relations, id).value;
        assert IndexOf(rels, id) == Some(i) by {
          forall j | 0 <= j < i ensures rels[j].id != id {
            assert rels[j].id == w.relations[j].id;
          }
        }
        Success(UpdateRelationData(w.(relations := rels), id, RequestData(req)))
    else Success(UpdateRelationData(w, id, RequestData(req)))
  }

  /** Joining keeps the alias invariant, and with no more relations than
      the pool's size (the connection limit) a database join never fails. */
  lemma JoinKeepsAliases(req: Requirer, w: World, id: int)
    requires HasRelation(w.relations, id)
    requires AliasesWellFormed(req.aliases, w.relations)
    ensures var r := OnRelationJoined(req, w, id);
      r.Success? ==> AliasesWellFormed(req.aliases, r.value.relations)
    ensures |w.relations| <= |req.aliases| ==> OnRelationJoined(req, w, id).Success?
  {
    var r := OnRelationJoined(req, w, id);
    if req.adapter == Database {
      AssignPreservesWellFormed(req.aliases, w.relations, id);
      if |w.relations| <= |req.aliases| && |req.aliases| > 0 {
        AssignWithinLimitSucceeds(req.aliases, w.relations, id);
      }
      if r.Success? {
        var rels := AssignAlias(req.aliases, w.relations, id).value;
        assert forall j :: 0 <= j < |rels| ==> r.value.relations[j].alias == rels[j].alias;
      }
    } else if r.Success? {
      assert forall j :: 0 <= j < |w.relations| ==> r.value.relations[j].alias == w.relations[j].alias;
    }
  }

  /** A database join on a relation without an alias succeeds exactly when
      some pool entry is free, and then gives the relation the first free
      entry in pool order. */
  lemma JoinAssignsFirstFree(req: Requirer, w: World, id: int)
    requires req.adapter == Database && |req.aliases| > 0 && HasRelation(w.relations, id)
    requires AliasesWellFormed(req.aliases, w.relations)
    requires !Truthy(w.relations[IndexOf(w.relations, id).value].alias)
    ensures OnRelationJoined(req, w, id).Success? <==>
      exists j :: 0 <= j < |req.aliases| && req.aliases[j] !in Held(w.relations)
    ensures var r := OnRelationJoined(req, w, id);
      r.Success? ==>
        exists k :: 0 <= k < |req.aliases| && req.aliases[k] !in Held(w.relations)
          && (forall j :: 0 <= j < k ==> req.aliases[j] in Held(w.relations))
          && r.value.relations[IndexOf(w.relations, id).value].alias == Some(req.aliases[k])
  {
    AssignFailsOnlyWhenPoolExhausted(req.aliases, w.relations, id);
    AssignPicksFirstFree(req.aliases, w.relations, id);
  }
}

=== FILE: scenarios.dfy ===
/** Concrete runs of the protocol: the diff sequence, alias assignment and
    event dispatch the library's unit tests walk through. */
module Scenarios {
  import opened Common
  import opened RelationModel
  import opened SnapshotDiff
  import opened Classifier
  import opened Aliases
  import opened Requirers

  const Pool: seq<string> := ["cluster1", "cluster2"]

  function Fresh(id: int, remote: Databag): Relation {
    Relation(id, remote, None, None, map[])
  }

  /** Credentials appear, nothing changes, the username rotates, both
      credentials go away: added, nothing, changed, deleted. */
  lemma DiffSequence()
    ensures var creds := map["username" := "u", "password" := "p"];
      var w0 := World([Fresh(1, creds)], false);
      var (d1, w1) := DiffRelation(w0, 1);
      var (d2, w2) := DiffRelation(w1, 1);
      var w2' := w2.(relations := [w2.relations[0].(remoteApp := creds["username" := "u1"])]);
      var (d3, w3) := DiffRelation(w2', 1);
      var w3' := w3.(relations := [w3.relations[0].(remoteApp := map[])]);
      var (d4, _) := DiffRelation(w3', 1);
      && d1 == Diff({"username", "password"}, {}, {})
      && d2 == Diff({}, {}, {})
      && d3 == Diff({}, {"username"}, {})
      && d4 == Diff({}, {}, {"username", "password"})
  {
  }

  /** Two relations join in order: the first gets `cluster1`, the second
      `cluster2`, and the leader publishes the database name. */
  lemma AliasesAssignedInOrder()
    ensures var req := Requirer(Database, "db", None, Pool);
      var w0 := World([Fresh(1, map[]), Fresh(2, map[])], true);
      var r1 := OnRelationJoined(req, w0, 1);
      r1.Success? &&
      var r2 := OnRelationJoined(req, r1.value, 2);
      && r2.Success?
      && r2.value.relations[0].alias == Some("cluster1")
      && r2.value.relations[1].alias == Some("cluster2")
      && r2.value.relations[0].localApp == map["database" := "db"]
  {
    var req := Requirer(Database, "db", None, Pool);
    var w0 := World([Fresh(1, map[]), Fresh(2, map[])], true);
    assert Available(Pool, w0.relations) == Success(Pool);
    var r1 := OnRelationJoined(req, w0, 1);
    var rels1 := r1.value.relations;
    assert rels1[0].alias == Some("cluster1");
    assert Available(Pool, rels1) == Success(["cluster2"]);
  }

  /** The remote data of the aliased unit test: credentials and both
      endpoint entries at once. */
  const CreatedData: Databag := map["username" := "u", "password" := "p",
                                    "endpoints" := "h1:1", "read-only-endpoints" := "h2:2"]

  /** When credentials and endpoints appear together, created wins over
      both endpoint events. */
  lemma CreatedBeatsEndpoints(rel: Relation)
    requires rel.id == 1 && rel.remoteApp == CreatedData && rel.baseline.None?
    ensures Classify(Database, DiffRelation(World([rel], false), 1).0) == Some(Created)
  {
    assert StripData(CreatedData) == CreatedData;
    assert DiffRelation(World([rel], false), 1).0.added == CreatedData.Keys;
  }

  /** Credentials and both endpoint entries appear on a relation holding
      `cluster1`: the plain and then the aliased created event fire, and
      the endpoint events do not. */
  lemma AliasedCreatedDispatch()
    ensures var req := Requirer(Database, "db", None, Pool);
      var rel := Relation(1, CreatedData, None, Some("cluster1"), map[]);
      var res := OnRelationChanged(req, World([rel], false), 1);
      res.events == ["database_created", "cluster1_database_created"] && res.error.None?
  {
    var req := Requirer(Database, "db", None, Pool);
    var rel := Relation(1, CreatedData, None, Some("cluster1"), map[]);
    CreatedBeatsEndpoints(rel);
    var aliased := AliasedEventName("cluster1", "database_created");
    assert aliased == "cluster1_database_created";
    assert aliased in DefinedEvents(req) by {
      assert "cluster1" in req.aliases && Created in Kinds(Database);
    }
  }

  /** Credentials appearing on first contact classify as created. */
  lemma CredentialsAddedClassify(rel: Relation)
    requires rel.id == 1 && rel.remoteApp == map["username" := "u", "password" := "p"] && rel.baseline.None?
    ensures Classify(Database, DiffRelation(World([rel], false), 1).0) == Some(Created)
  {
    assert StripData(rel.remoteApp) == rel.remoteApp;
    assert DiffRelation(World([rel], false), 1).0.added == {"username", "password"};
  }

  /** A relation still holding an alias that is not in the pool: the plain
      created event fires, then the lookup of the aliased event fails. */
  lemma ForeignAliasFails()
    ensures var req := Requirer(Database, "db", None, []);
      var rel := Relation(1, map["username" := "u", "password" := "p"], None, Some("old"), map[]);
      var res := OnRelationChanged(req, World([rel], false), 1);
      res.events == ["database_created"] && res.error == Some(UndefinedEvent("old_database_created"))
  {
    var req := Requirer(Database, "db", None, []);
    var rel := Relation(1, map["username" := "u", "password" := "p"], None, Some("old"), map[]);
    CredentialsAddedClassify(rel);
    assert AliasedEventName("old", "database_created") == "old_database_created";
    assert "old_database_created" !in DefinedEvents(req) by {
      DatabaseClassEvents();
      assert DefinedEvents(req) == ClassEvents(Database);
      assert |"old_database_created"| == 20;
    }
  }

  /** Only the endpoints changed: endpoints-changed fires, read-only does
      not, and without an alias there is a single event. */
  lemma EndpointsOnly()
    ensures var req := Requirer(Database, "db", None, []);
      var rel := Relation(1, map["endpoints" := "h1:1,h2:2"], Some(map["endpoints" := "h1:1"]), None, map[]);
      OnRelationChanged(req, World([rel], false), 1).events == ["endpoints_changed"]
  {
    var rel := Relation(1, map["endpoints" := "h1:1,h2:2"], Some(map["endpoints" := "h1:1"]), None, map[]);
    var d := DiffRelation(World([rel], false), 1).0;
    assert d.changed == {"endpoints"};
    assert !CredentialsAdded(d);
  }

  /** A configuration with fewer aliases than the connection limit is
      refused; no aliases at all is accepted. */
  lemma AliasCountChecked()
    ensures NewDatabaseRequires("db", None, ["cluster1"], Some(2)) == Failure(AliasCountMismatch(Some(2), 1))
    ensures NewDatabaseRequires("db", None, [], None) == Success(Requirer(Database, "db", None, []))
  {
  }

  /** The database event class declares exactly its three events. */
  lemma DatabaseClassEvents()
    ensures ClassEvents(Database) == {"database_created", "endpoints_changed", "read_only_endpoints_changed"}
  {
    assert EventName(Database, Created) == "database_created";
    assert EventName(Database, EndpointsChanged) == "endpoints_changed";
    assert EventName(Database, ReadOnlyEndpointsChanged) == "read_only_endpoints_changed";
  }

  /** The unit tests' pool, with a limit of two, is accepted. */
  lemma TestPoolAccepted()
    ensures NewDatabaseRequires("db", None, Pool, Some(2)) == Success(Requirer(Database, "db", None, Pool))
  {
    var c := ClassEvents(Database);
    var names := AllAliasEvents(Pool);
    assert names == AliasEvents("cluster1") + AliasEvents("cluster2") by {
      assert Pool[1..] == ["cluster2"];
    }
    assert forall i :: 0 <= i < |names| ==> IsIdentifier(names[i]) && names[i] !in c by {
      DatabaseClassEvents();
      forall i | 0 <= i < |names| ensures IsIdentifier(names[i]) && names[i] !in c {
        assert names[i][0] == 'c';
      }
    }
    assert Distinct(names) by {
      forall i, j | 0 <= i < j < |names| ensures names[i] != names[j] {
        assert names[i][7] == (if i < 3 then '1' else '2');
        assert names[j][7] == (if j < 3 then '1' else '2');
        assert |names[i]| == [25, 26, 36][i % 3];
        assert |names[j]| == [25, 26, 36][j % 3];
      }
    }
    DefineEventsSucceedsIff(c, names);
  }

  /** A repeated alias defines its created event a second time, which
      construction refuses. */
  lemma RepeatedAliasRefused()
    ensures NewDatabaseRequires("db", None, ["a", "a"], Some(2)) == Failure(DuplicateEvent("a_database_created"))
  {
    var c := ClassEvents(Database);
    DatabaseClassEvents();
    assert ["a", "a"][1..] == ["a"];
    var names := AllAliasEvents(["a", "a"]);
    assert names == AliasEvents("a") + AliasEvents("a");
    assert names[0] == "a_database_created" && names[3] == names[0];
    assert |names[0]| == 18 && |names[1]| == 19 && |names[2]| == 29;
    var d1 := c + {names[0]};
    var d2 := d1 + {names[1]};
    var d3 := d2 + {names[2]};
    assert names[0][0] == 'a' && names[1][0] == 'a' && names[2][0] == 'a';
    assert DefineEvent(c, names[0]) == Success(d1);
    assert DefineEvent(d1, names[1]) == Success(d2);
    assert DefineEvent(d2, names[2]) == Success(d3);
    assert DefineEvent(d3, names[3]) == Failure(DuplicateEvent("a_database_created"));
    assert names[1..][1..][1..][1..] == names[4..];
  }

  /** An alias that does not make an identifier is refused. */
  lemma HyphenatedAliasRefused()
    ensures NewDatabaseRequires("db", None, ["my-db", "x"], Some(2)) == Failure(InvalidEventName("my-db_database_created"))
  {
    var names := AllAliasEvents(["my-db", "x"]);
    assert names[0] == "my-db_database_created";
    assert '-' in names[0] && !IdentifierChar('-');
    assert DefineEvent(ClassEvents(Database), names[0]) == Failure(InvalidEventName("my-db_database_created"));
  }

  /** An alias whose event would shadow a class-level event is refused:
      `read_only` plus `_endpoints_changed` is the read-only event. */
  lemma ShadowingAliasRefused()
    ensures NewDatabaseRequires("db", None, ["read_only"], Some(1)) == Failure(DuplicateEvent("read_only_endpoints_changed"))
  {
    var c := ClassEvents(Database);
    var names := AllAliasEvents(["read_only"]);
    assert names[0] == "read_only_database_created" && names[1] == "read_only_endpoints_changed" by {
      assert names == AliasEvents("read_only");
    }
    var d1 := c + {names[0]};
    assert DefineEvent(c, names[0]) == Success(d1) by {
      DatabaseClassEvents();
      assert |names[0]| == 26 && names[0][0] == 'r';
    }
    assert DefineEvents(d1, names[1..]) == Failure(DuplicateEvent("read_only_endpoints_changed")) by {
      DatabaseClassEvents();
    }
  }

  /** The three events of an alias, spelled out. */
  lemma AliasEventsSpelled(alias: string)
    ensures AliasEvents(alias) ==
      [alias + "_database_created", alias + "_endpoints_changed", alias + "_read_only_endpoints_changed"]
  {
    assert AliasedEventName(alias, "database_created") == alias + "_database_created";
    assert AliasedEventName(alias, "endpoints_changed") == alias + "_endpoints_changed";
    assert AliasedEventName(alias, "read_only_endpoints_changed") == alias + "_read_only_endpoints_changed";
  }

  /** The events the pool `x, x_read_only` defines: those of `x`, then
      those of `x_read_only`. */
  lemma CoincidingAliasNames()
    ensures AllAliasEvents(["x", "x_read_only"]) == AliasEvents("x") + AliasEvents("x_read_only")
  {
    assert ["x", "x_read_only"][1..] == ["x_read_only"];
  }

  /** The read-only event of alias `x` is spelled
      `x_read_only_endpoints_changed`. */
  lemma XReadOnlyEndpointsSpelled()
    ensures AliasEvents("x")[2] == "x_read_only_endpoints_changed"
  {
    AliasEventsSpelled("x");
    assert "x" + "_read_only_endpoints_changed" == "x_read_only_endpoints_changed";
  }

  /** The endpoints event of alias `x_read_only` is spelled the same way. */
  lemma XReadOnlyAliasEndpointsSpelled()
    ensures AliasEvents("x_read_only")[1] == "x_read_only_endpoints_changed"
  {
    AliasEventsSpelled("x_read_only");
    assert "x_read_only" + "_endpoints_changed" == "x_read_only_endpoints_changed";
  }

  /** The first four events of that pool are all fresh identifiers. */
  lemma CoincidingPrefixFresh()
    ensures EventNamesFresh(ClassEvents(Database), AllAliasEvents(["x", "x_read_only"])[..4])
  {
    var c := ClassEvents(Database);
    var p := AllAliasEvents(["x", "x_read_only"])[..4];
    CoincidingAliasNames();
    AliasEventsSpelled("x");
    AliasEventsSpelled("x_read_only");
    DatabaseClassEvents();
    assert p[0] == "x" + "_database_created" && p[1] == "x" + "_endpoints_changed";
    assert p[2] == "x" + "_read_only_endpoints_changed" && p[3] == "x_read_only" + "_database_created";
    forall i | 0 <= i < |p| ensures IsIdentifier(p[i]) && p[i] !in c {
      assert p[i][0] == 'x';
    }
    forall i, j | 0 <= i < j < |p| ensures p[i] != p[j] {
      assert |p[i]| == [18, 19, 29, 28][i] && |p[j]| == [18, 19, 29, 28][j];
    }
  }

  /** The definition loop accepts the first four names of that pool and
      refuses the fifth, which repeats the third. */
  lemma CoincidingAliasLoop()
    ensures DefineEvents(ClassEvents(Database), AllAliasEvents(["x", "x_read_only"])) ==
      Failure(DuplicateEvent("x_read_only_endpoints_changed"))
  {
    var c := ClassEvents(Database);
    var names := AllAliasEvents(["x", "x_read_only"]);
    CoincidingPrefixFresh();
    assert names[4] == names[2] && names[4] == "x_read_only_endpoints_changed" by {
      CoincidingAliasNames();
      XReadOnlyEndpointsSpelled();
      XReadOnlyAliasEndpointsSpelled();
    }
    assert names[..4][2] == names[4];
    DefineEventsRefusesFirstRepeat(c, names, 4);
  }

  /** Two valid aliases can define the same event: `x` plus
      `_read_only_endpoints_changed` and `x_read_only` plus
      `_endpoints_changed` coincide, and construction refuses the second. */
  lemma CoincidingAliasesRefused()
    ensures NewDatabaseRequires("db", None, ["x", "x_read_only"], Some(2)) ==
      Failure(DuplicateEvent("x_read_only_endpoints_changed"))
  {
    CoincidingAliasLoop();
  }

  /** An endpoints-only first contact classifies as endpoints-changed. */
  lemma EndpointsAddedClassify(rel: Relation)
    requires rel.id == 1 && rel.remoteApp == map["endpoints" := "h1:1"] && rel.baseline.None?
    ensures Classify(Database, DiffRelation(World([rel], false), 1).0) == Some(EndpointsChanged)
  {
    assert StripData(rel.remoteApp) == rel.remoteApp;
    assert DiffRelation(World([rel], false), 1).0.added == {"endpoints"};
  }

  /** An alias outside the pool can still name a defined event: `read_only`
      with `endpoints_changed` is the class-level read-only event, which the
      aliased lookup finds and emits. */
  lemma ForeignAliasHitsClassEvent()
    ensures var req := Requirer(Database, "db", None, []);
      var rel := Relation(1, map["endpoints" := "h1:1"], None, Some("read_only"), map[]);
      var res := OnRelationChanged(req, World([rel], false), 1);
      res.events == ["endpoints_changed", "read_only_endpoints_changed"] && res.error.None?
  {
    var req := Requirer(Database, "db", None, []);
    var rel := Relation(1, map["endpoints" := "h1:1"], None, Some("read_only"), map[]);
    EndpointsAddedClassify(rel);
    assert AliasedEventName("read_only", "endpoints_changed") == "read_only_endpoints_changed";
    assert "read_only_endpoints_changed" in DefinedEvents(req) by {
      DatabaseClassEvents();
    }
  }
}
